=== FILE: README.md ===
# Dog registry: server actions and microchip search

This project models the domain core of a microchip-based dog registry used by
veterinarians. The core is the set of server actions in
`app/actions/dogActions.ts` and the microchip lookup of `app/search/page.tsx`.

The server actions are:

- `createDogRecord` registers a dog together with a new owner row.
- `addVaccine` appends a vaccination.
- `addStatusEvent` sets a dog's status and logs the change.
- `transferOwner` moves a dog to a new owner row and writes an audit entry.
  Only the dog's primary vet may do this.
- `saveVetProfile` upserts the caller's vet profile.

The relational store (owners, dogs, vaccines, status events, audit logs, vets)
is the `Registry` class. Its fields are maps and sequences that the action
methods reassign. Each action takes three kinds of input:

- the caller, which is the signed-in vet's id or `None`;
- the submitted form, a map from field name to text;
- one fault per store call.

A fault decides whether that store call goes through, fails with an error, or
returns no row. This makes every error path and every partial-write window of
the source explicit. The store's one constraint the actions depend on is the
unique microchip number, which raises PostgreSQL error code 23505. It is
enforced inside `InsertDog`. The invariant `Registry.Valid` states that:

- microchip numbers are unique, non-empty and free of whitespace;
- every dog's owner row exists;
- ids not yet handed out are free.

Text handling follows JavaScript:

- `trim()` removes the ECMAScript WhiteSpace and LineTerminator characters.
- `replace(/\s+/g, '')` removes every character of the same set.

It is proved that the microchip normalisation `trim().replace(/\s+/g, '')` is
the whitespace strip alone, that it is idempotent, and that two inputs normalise
alike exactly when they agree once whitespace is ignored. The search page
applies this normalisation to its query and does an exact `maybeSingle` match.
Under the unique constraint, a registered dog is found by every query that
differs from its submitted microchip number only in whitespace, unless the
lookup itself fails, which the page shows as "no record".

Modules:

- `Wrappers` holds `Option`.
- `Text` holds trimming and whitespace stripping.
- `Schema` holds the rows, store errors and faults, and ids.
- `Forms` reads form fields.
- `DogActions` holds the `Registry` class and the actions.
- `SearchPage` holds the lookup.
- `Scenarios` chains actions the way the pages do.

The model keeps these behaviours of the code:

- `addStatusEvent` stores any non-empty status text. It does not check it
  against normal, lost, stolen and found.
- The status update and the event insert are two independent writes. When the
  event insert fails, the new status stays without its event.
- A failed dog insert in `createDogRecord` leaves the owner row behind.
- A failed dog update in `transferOwner` leaves the new owner row behind.
- The audit insert of `transferOwner` is best-effort. Its failure is ignored and
  the transfer still reports success.
- The submitted `old_owner_id` is logged as given. It is never compared with the
  dog's current owner.

## Model

| member | source | states |
|---|---|---|
| Text.StripWs | app/actions/dogActions.ts:18 | `replace(/\s+/g, '')` leaves no whitespace and never lengthens the text |
| Text.NormalizeChip | app/search/page.tsx:13 | the normalised microchip number contains no whitespace |
| Text.Trim | app/actions/dogActions.ts:8 | `trim()`; its contract is carried by `Text.TrimStartSpec`, `Text.TrimEndSpec`, `Text.TrimEdges` and `Text.TrimEmpty` |
| Text.TrimStartSpec | app/actions/dogActions.ts:8 | the leading-whitespace trim keeps a suffix that does not start with whitespace, and everything it drops is whitespace |
| Text.TrimEndSpec | app/actions/dogActions.ts:8 | the trailing-whitespace trim keeps a prefix that does not end with whitespace, and everything it drops is whitespace |
| Text.TrimEdges | app/actions/dogActions.ts:8 | a trimmed string is empty or has non-whitespace first and last characters |
| Text.StripWsAppend | app/actions/dogActions.ts:18 | stripping distributes over concatenation |
| Text.StripWsChars | app/actions/dogActions.ts:18 | a character survives stripping iff it occurs in the input and is not whitespace |
| Text.StripWsFixedPoint | app/actions/dogActions.ts:18 | stripping leaves a string unchanged iff it holds no whitespace |
| Text.StripWsEmpty | app/actions/dogActions.ts:18 | stripping yields "" iff the input is all whitespace |
| Text.StripWsIdempotent | app/actions/dogActions.ts:18 | stripping twice equals stripping once |
| Text.StripWsIgnoresTrimStart | app/actions/dogActions.ts:18 | stripping after a leading trim equals stripping alone |
| Text.StripWsIgnoresTrimEnd | app/actions/dogActions.ts:18 | stripping after a trailing trim equals stripping alone |
| Text.StripWsIgnoresTrim | app/actions/dogActions.ts:18 | the `trim()` before the strip changes nothing |
| Text.TrimEmpty | app/actions/dogActions.ts:8 | `trim()` yields "" iff the input is all whitespace |
| Text.TrimNoWs | app/actions/dogActions.ts:8 | text without whitespace is unchanged by `trim()` |
| Text.NormalizeIsStrip | app/search/page.tsx:13 | the microchip normalisation equals the whitespace strip |
| Text.NormalizeIdempotent | app/search/page.tsx:13 | normalising a normalised microchip number changes nothing |
| Text.NormalizeEquivalent | app/search/page.tsx:13 | two inputs normalise to the same microchip number iff they agree once whitespace is ignored |
| Text.NormalizeIgnoresInsertedWs | app/search/page.tsx:13 | whitespace inserted anywhere does not change the normalised microchip number |
| Text.NormalizeNoWs | app/search/page.tsx:13 | a whitespace-free microchip number is its own normal form |
| Text.NormalizeSpaced | app/search/page.tsx:13 | "prefix serial" typed with a space normalises to "prefixserial" |
| Forms.Field | app/actions/dogActions.ts:8 | `formData.get(key)?.toString() ?? ''`: the submitted text or ""; stated through `Forms.AsTextBlank` (blank iff absent or all whitespace) |
| Forms.AsText | app/actions/dogActions.ts:7-9 | `asText`: the field or "", trimmed; its contract is carried by `Forms.AsTextBlank` |
| Forms.AsTextBlank | app/actions/dogActions.ts:7-9 | `asText` is "" iff the field is absent or all whitespace; otherwise it has non-whitespace edges |
| Forms.OptTextNull | app/actions/dogActions.ts:20-21 | `asText(..) \|\| null` is null iff the field is absent or blank, otherwise the trimmed non-empty text |
| Forms.OptText | app/actions/dogActions.ts:20-21 | `asText(..) \|\| null`; its contract is carried by `Forms.OptTextNull` |
| Forms.ReadOwner | app/actions/dogActions.ts:23-28 | the owner fields under a prefix (also lines 140-145); what is stored from it is stated by `DogActions.Registry.CreateDogRecord` and `DogActions.Registry.TransferOwner` |
| Forms.NewDogComplete | app/actions/dogActions.ts:30 | the required fields of `createDogRecord`; stated by `DogActions.Registry.CreateDogRecord` (an incomplete form gives "Microchip number, dog name, and owner name are required." and writes nothing) |
| Forms.VaccineComplete | app/actions/dogActions.ts:83 | the required fields of `addVaccine`; stated by `DogActions.Registry.AddVaccine` (an incomplete form gives "Vaccine name and date are required." and writes nothing) |
| Forms.StatusComplete | app/actions/dogActions.ts:112 | the required fields of `addStatusEvent`; stated by `DogActions.Registry.AddStatusEvent` (an incomplete form gives "Status is required." and writes nothing) |
| Forms.TransferComplete | app/actions/dogActions.ts:147 | the required fields of `transferOwner`; stated by `DogActions.Registry.TransferOwner` (an incomplete form gives "New owner full name is required." and writes nothing) |
| Forms.ChipText | app/actions/dogActions.ts:18 | the microchip number read from the form contains no whitespace |
| Forms.ChipTextSpec | app/actions/dogActions.ts:18 | the form's microchip number is the field with all whitespace removed, and is "" iff the field is absent or blank |
| Schema.ChipInUse | app/actions/dogActions.ts:58-64 | some dog carries the microchip number; `DogActions.Registry.InsertDog` fails with code 23505 exactly then, and `SearchPage.MatchingIdsInUse` ties it to the lookup |
| Schema.MicrochipsUnique | app/actions/dogActions.ts:58-64 | the store's unique constraint on microchip numbers; kept by `DogActions.Registry.InsertDog` through `Registry.Valid`, and used by `SearchPage.AtMostOneMatch` |
| Schema.WithStatus | app/actions/dogActions.ts:114 | the status update changes only the matching dog's status; a missing id changes nothing |
| Schema.Decimal | app/actions/dogActions.ts:34-38 | a minted id is a non-empty string of decimal digits |
| Schema.MintIdNoWs | app/actions/dogActions.ts:34-38 | a minted id is non-empty and free of whitespace, so `asText` reads it back from a form unchanged |
| Schema.MintIdInjective | app/actions/dogActions.ts:34-38 | ids the store hands out are equal iff their serials are, so no id is handed out twice |
| DogActions.DogFailureMessage | app/actions/dogActions.ts:58-64 | the message for a failed dog insert; stated by `DogActions.Registry.CreateDogRecord` (code 23505 gives "Microchip number already exists.") and `Scenarios.SecondRegistrationRejected` |
| DogActions.Registry.MayTransfer | app/actions/dogActions.ts:157-160 | the primary-vet gate; stated by `DogActions.Registry.TransferOwner` and `Scenarios.DenyThenTransfer` |
| DogActions.Registry.NextId | app/actions/dogActions.ts:34-38 | the id the next insert receives is in use neither as an owner nor as a dog |
| DogActions.Registry.InsertOwner | app/actions/dogActions.ts:34-38 | the owner insert adds exactly one row under a fresh id, or fails or returns no row with nothing written |
| DogActions.Registry.InsertDog | app/actions/dogActions.ts:44-56 | the dog insert adds one row under a fresh id unless the microchip number is taken, which fails with code 23505; unique microchips are preserved |
| DogActions.Registry.UpdateDogStatus | app/actions/dogActions.ts:114-115 | the status update writes the new status or, on error, nothing |
| DogActions.Registry.CreateDogRecord | app/actions/dogActions.ts:11-69 | unauthorised or incomplete forms write nothing; an owner failure writes nothing; a written owner row stays whatever the dog insert does; a taken microchip gives "Microchip number already exists."; a dog is created iff every step succeeds and the chip is free, with status "normal", the caller as primary vet and the new owner, under a whitespace-free id |
| DogActions.Registry.AddVaccine | app/actions/dogActions.ts:71-99 | the vaccine row is appended, attributed to the caller, iff signed in, dog id, name and date are present and the insert succeeds; otherwise nothing is written and the source's message is returned |
| DogActions.Registry.AddStatusEvent | app/actions/dogActions.ts:101-128 | on success the dog's status is the submitted text and one event with that status and caller is appended; a failed event insert still leaves the status updated |
| DogActions.Registry.ReassignOwner | app/actions/dogActions.ts:162-181 | the new owner row is inserted under a fresh id, the dog points at it, and the audit entry is appended only when its insert succeeds; a failed update leaves the owner row |
| DogActions.Registry.TransferOwner | app/actions/dogActions.ts:130-185 | a missing dog or a caller who is not the primary vet gets its message with nothing written; on success the dog's owner is a fresh owner row different from the previous one, and the audit entry records the submitted old owner id, the new owner id and the caller |
| DogActions.Registry.SaveVetProfile | app/actions/dogActions.ts:187-203 | the caller's vet row is set to the blank-as-null clinic name and phone, or nothing changes on error |
| SearchPage.MatchingIds | app/search/page.tsx:21 | the rows `.eq('microchip_number', q)` selects; stated by `SearchPage.MaybeSingle`, `SearchPage.AtMostOneMatch` and `SearchPage.MatchingIdsInUse` |
| SearchPage.MatchingIdsInUse | app/search/page.tsx:21 | the lookup selects some row iff some dog carries the microchip number |
| SearchPage.MaybeSingle | app/search/page.tsx:17-22 | `maybeSingle` returns a matching row iff exactly one row has the microchip number |
| SearchPage.Search | app/search/page.tsx:12-23 | no lookup iff the normalised query is empty; a failed lookup shows "no record" for the normalised query; a found dog carries exactly the normalised query as its microchip number |
| SearchPage.QueryChip | app/search/page.tsx:12-13 | the normalised query; its contract is carried by `SearchPage.QueryIdempotent`, `SearchPage.QueryIgnoresWs` and `Text.NormalizeChip` |
| SearchPage.QueryIdempotent | app/search/page.tsx:12-13 | searching for a normalised query is the same as searching for the raw one |
| SearchPage.QueryIgnoresWs | app/search/page.tsx:12-13 | two queries look up the same microchip number iff they agree once whitespace is ignored |
| SearchPage.AtMostOneMatch | app/search/page.tsx:17-22 | under the unique constraint at most one dog matches a query |
| SearchPage.SearchExact | app/search/page.tsx:12-23 | under the unique constraint, a non-empty query whose lookup goes through finds the dog with that microchip number, and any non-empty query finds nothing when no dog has it |
| SearchPage.RegisteredDogIsFound | app/search/page.tsx:12-23 | a dog registered from a form is found by any query that equals the submitted microchip number up to whitespace when the lookup goes through, and "no record" is shown when it fails |
| Scenarios.RegisterThenSearch | app/search/page.tsx:12-23 | a successful registration followed by a search with the same chip up to whitespace finds the new dog, or shows "no record" when the lookup fails |
| Scenarios.SecondRegistrationRejected | app/actions/dogActions.ts:58-64 | registering a second dog with the same chip up to whitespace fails with the duplicate message, adds no dog but leaves a second owner row |
| Scenarios.SaveVetProfileTwice | app/actions/dogActions.ts:197 | the profile save is an upsert: both saves report "Vet profile saved." and leave one row per vet, holding the second values |
| Scenarios.TransferFormReads | app/actions/dogActions.ts:137-145 | a transfer form filled with a dog id and owner id reads them back through `asText`, and the new owner fields as submitted |
| Scenarios.DenyThenTransfer | app/actions/dogActions.ts:151-181 | for a dog whose primary vet is A, vet B is refused, then A succeeds: the dog points at a new owner row and one audit entry records the dog, the submitted and the new owner ids, and A |
| Scenarios.OnlyPrimaryVetTransfers | app/actions/dogActions.ts:52-181 | vet A registers a dog and becomes its primary vet; vet B's transfer is refused and vet A's succeeds, with one audit entry recording the dog's previous owner, the new one and A |

## Left out

- Authentication (`supabase.auth.getUser`) is a parameter: the caller's id, or `None` when no one is signed in.
- The store is the `Registry` object. Network round trips, the Supabase client and row-level security are not modelled. The outcome of each store call, in the five actions and in the search lookup, is an explicit fault parameter.
- `revalidatePath` and `redirect` are cache and navigation effects. A successful `createDogRecord` returns `Created(dogId)` where the source redirects to the dog's page.
- Generated UUID keys are replaced by decimal serials minted by the store. Only their freshness matters to the actions.
- Row ids and `created_at` timestamps of vaccines, status events and audit log rows are not modelled; those rows are kept in insertion order.
- No foreign key is checked: not from vaccines, status events or audit log rows to dogs, and not from primary or creating vet ids to vets. A violation appears only through the fault parameter.
- The dog update in `transferOwner` is applied to the dog that was just read. A concurrent deletion between the read and the update is not modelled, and neither is any other concurrency.
- Dates (`birthdate`, `vaccine_date`, `next_due_date`) are kept as the submitted text. The store's date parsing is not modelled.
- The search page's parallel read of the vet's clinic name, and the rendering of the result, are presentation only. `Search` returns what the page shows: nothing, "no record" with the normalised query, or the dog.
- An ambiguous `maybeSingle` (several rows) comes back as "no match". The unique constraint rules it out for the registry's dogs.
- `lib/auth.ts`, the page components other than the search lookup, and the seed script are not part of this model.

=== FILE: forms.dfy ===
/**
 * Reading a submitted form: `asText` and the per-action field normalisation
 * of app/actions/dogActions.ts. A form is the map from field name to the
 * submitted text; a field that was not submitted reads as the empty string.
 */
module Forms {
  import opened Wrappers
  import opened Text
  import opened Schema

  type Form = map<string, string>

  /** `formData.get(key)?.toString() ?? ''` */
  function Field(form: Form, key: string): string {
    if key in form then form[key] else ""
  }

  /** `asText(formData, key)`: the field, trimmed. */
  function AsText(form: Form, key: string): string {
    Trim(Field(form, key))
  }

  /** `asText(formData, key) || null`: an optional column, null when blank. */
  function OptText(form: Form, key: string): Option<string> {
    var t := AsText(form, key);
    if t == "" then None else Some(t)
  }

  /** A field reads as empty, and so fails a required-field check, exactly
      when it is absent or all whitespace; otherwise it has no whitespace at
      either end. */
  lemma AsTextBlank(form: Form, key: string)
    ensures AsText(form, key) == [] <==> key !in form || AllWs(form[key])
    ensures AsText(form, key) == [] || (!IsWs(AsText(form, key)[0]) && !IsWs(AsText(form, key)[|AsText(form, key)| - 1]))
  {
    TrimEmpty(Field(form, key));
    TrimEdges(Field(form, key));
  }

  /** An optional field is stored as null exactly when it is absent or blank,
      and otherwise as its trimmed, non-empty text. */
  lemma OptTextNull(form: Form, key: string)
    ensures OptText(form, key).None? <==> key !in form || AllWs(form[key])
    ensures OptText(form, key).Some? ==> OptText(form, key).value == AsText(form, key) != []
  {
    AsTextBlank(form, key);
  }

  /** `asText(formData, 'microchip_number').replace(/\s+/g, '')`: the submitted
      microchip number with every whitespace character removed. */
  function ChipText(form: Form): (r: string)
    ensures NoWs(r)
  {
    NormalizeChip(Field(form, "microchip_number"))
  }

  /** The stored microchip number is the submitted one with all whitespace
      removed; it is empty exactly when the field is absent or blank. */
  lemma ChipTextSpec(form: Form)
    ensures ChipText(form) == StripWs(Field(form, "microchip_number"))
    ensures ChipText(form) == [] <==> "microchip_number" !in form || AllWs(form["microchip_number"])
  {
    NormalizeIsStrip(Field(form, "microchip_number"));
    StripWsEmpty(Field(form, "microchip_number"));
  }

  /** The owner fields of a form, under `owner_` when a dog is registered and
      under `new_owner_` on a transfer. */
  function ReadOwner(form: Form, prefix: string): Owner {
    Owner(
      AsText(form, prefix + "full_name"),
      OptText(form, prefix + "phone"),
      OptText(form, prefix + "email"),
      OptText(form, prefix + "address"))
  }

  /** The required fields of createDogRecord. */
  predicate NewDogComplete(form: Form) {
    ChipText(form) != "" && AsText(form, "name") != "" && ReadOwner(form, "owner_").fullName != ""
  }

  /** The required fields of addVaccine. */
  predicate VaccineComplete(form: Form) {
    AsText(form, "dog_id") != "" && AsText(form, "vaccine_name") != "" && AsText(form, "vaccine_date") != ""
  }

  /** The required fields of addStatusEvent. */
  predicate StatusComplete(form: Form) {
    AsText(form, "dog_id") != "" && AsText(form, "status") != ""
  }

  /** The required fields of transferOwner. */
  predicate TransferComplete(form: Form) {
    AsText(form, "dog_id") != "" && AsText(form, "old_owner_id") != "" && ReadOwner(form, "new_owner_").fullName != ""
  }
}

=== FILE: registry.dfy ===
/**
 * The five server actions of app/actions/dogActions.ts, as methods of the
 * registry store they write to.
 *
 * Each action takes the caller (the signed-in vet's id, or None when no one
 * is signed in), the submitted form, and one fault per store call it makes:
 * the fault decides whether that call goes through, so every partial-write
 * window the actions leave open can be stated. The store's own rule, the
 * unique microchip number, is checked inside InsertDog, not by the action.
 */
module DogActions {
  import opened Wrappers
  import opened Text
  import opened Schema
  import opened Forms

  /** What an action returns: `{ error }`, `{ success }`, or the redirect to
      the new dog's page. */
  datatype ActionResult = Error(msg: string) | Success(msg: string) | Created(dogId: Id)

  const MsgUnauthorized := "Unauthorized."
  const MsgDogFieldsRequired := "Microchip number, dog name, and owner name are required."
  const MsgOwnerFailed := "Could not create owner."
  const MsgChipExists := "Microchip number already exists."
  const MsgDogFailed := "Failed to create dog record."
  const MsgVaccineFieldsRequired := "Vaccine name and date are required."
  const MsgVaccineAdded := "Vaccine added."
  const MsgStatusRequired := "Status is required."
  const MsgStatusUpdated := "Status updated."
  const MsgNewOwnerRequired := "New owner full name is required."
  const MsgDogNotFound := "Dog not found."
  const MsgNotPrimaryVet := "Only the primary vet can transfer owner identity."
  const MsgNewOwnerFailed := "Could not create new owner."
  const MsgTransferred := "Owner transfer logged successfully."
  const MsgVetSaved := "Vet profile saved."

  /** The message createDogRecord returns when the dog insert fails: the
      duplicate-microchip text for a unique violation, otherwise the store's. */
  function DogFailureMessage(err: StoreError): string {
    if err.code == UniqueViolation then MsgChipExists else err.message
  }

  class Registry {
    var owners: map<Id, Owner>
    var dogs: map<Id, Dog>
    var vets: map<Id, Vet>
    var vaccines: seq<Vaccine>
    var statusEvents: seq<StatusEvent>
    var auditLogs: seq<AuditEntry>
    /** The serial of the next owner or dog row. */
    var serial: nat

    /** Ids not yet handed out are free; microchip numbers are unique, free of
        whitespace and non-empty; every dog's owner row exists. */
    ghost predicate Valid()
      reads this`owners, this`dogs, this`serial
    {
      && (forall k: nat :: serial <= k ==> MintId(k) !in owners && MintId(k) !in dogs)
      && MicrochipsUnique(dogs)
      && (forall id :: id in dogs ==> dogs[id].microchip != [] && NoWs(dogs[id].microchip))
      && (forall id :: id in dogs ==> dogs[id].ownerId in owners)
    }

    constructor ()
      ensures Valid()
      ensures owners == map[] && dogs == map[] && vets == map[]
      ensures vaccines == [] && statusEvents == [] && auditLogs == []
    {
      owners, dogs, vets := map[], map[], map[];
      vaccines, statusEvents, auditLogs := [], [], [];
      serial := 0;
    }

    /** The id the next inserted owner or dog receives. */
    function NextId(): (id: Id)
      reads this`owners, this`dogs, this`serial
      requires Valid()
      ensures id !in owners && id !in dogs
    {
      MintId(serial)
    }

    /** Handing out the next id keeps every later id free. */
    lemma AdvanceKeepsFresh(k: nat)
      requires serial < k
      ensures MintId(k) != MintId(serial)
    {
      MintIdInjective(k, serial);
    }

    /** `from('owners').insert(owner).select(...).single()` */
    method InsertOwner(o: Owner, fault: RowFault) returns (reply: Reply)
      requires Valid()
      modifies this`owners, this`serial
      ensures Valid()
      ensures fault == NoFault ==> reply == Row(old(NextId())) && owners == old(owners)[old(NextId()) := o]
      ensures fault.Fails? ==> reply == Failed(fault.err) && unchanged(this)
      ensures fault == NoRow ==> reply == NoData && unchanged(this)
    {
      match fault
      case NoFault =>
        var id := MintId(serial);
        forall k: nat | serial + 1 <= k ensures MintId(k) != id { AdvanceKeepsFresh(k); }
        owners := owners[id := o];
        serial := serial + 1;
        reply := Row(id);
      case Fails(e) =>
        reply := Failed(e);
      case NoRow =>
        reply := NoData;
    }

    /** `from('dogs').insert(dog).select('id').single()`, under the store's
        unique constraint on the microchip number. */
    method InsertDog(d: Dog, fault: RowFault) returns (reply: Reply)
      requires Valid()
      requires d.microchip != [] && NoWs(d.microchip) && d.ownerId in owners
      modifies this`dogs, this`serial
      ensures Valid()
      ensures fault == NoFault && !ChipInUse(old(dogs), d.microchip) ==>
        reply == Row(old(NextId())) && dogs == old(dogs)[old(NextId()) := d]
      ensures fault == NoFault && ChipInUse(old(dogs), d.microchip) ==>
        reply == Failed(ChipConflict) && unchanged(this)
      ensures fault.Fails? ==> reply == Failed(fault.err) && unchanged(this)
      ensures fault == NoRow ==> reply == NoData && unchanged(this)
    {
      match fault
      case NoFault =>
        if ChipInUse(dogs, d.microchip) {
          reply := Failed(ChipConflict);
        } else {
          var id := MintId(serial);
          forall k: nat | serial + 1 <= k ensures MintId(k) != id { AdvanceKeepsFresh(k); }
          dogs := dogs[id := d];
          serial := serial + 1;
          reply := Row(id);
        }
      case Fails(e) =>
        reply := Failed(e);
      case NoRow =>
        reply := NoData;
    }

    /** `from('dogs').update({ status }).eq('id', id)`; an id that matches no
        row updates nothing and is not an error. */
    method UpdateDogStatus(id: string, status: string, fault: Option<StoreError>) returns (err: Option<StoreError>)
      requires Valid()
      modifies this`dogs
      ensures Valid()
      ensures err == fault
      ensures dogs == if fault.None? then WithStatus(old(dogs), id, status) else old(dogs)
    {
      if fault.Some? {
        return fault;
      }
      dogs := WithStatus(dogs, id, status);
      err := None;
    }

    /** createDogRecord: insert the owner, then the dog pointing at it, with the
        caller as primary vet and status "normal". A failed dog insert leaves
        the owner row in place. */
    method CreateDogRecord(caller: Option<Id>, form: Form, ownerFault: RowFault, dogFault: RowFault)
      returns (r: ActionResult)
      requires Valid()
      modifies this`owners, this`dogs, this`serial
      ensures Valid()
      ensures !r.Success?
      ensures caller.None? ==> r == Error(MsgUnauthorized) && unchanged(this)
      ensures caller.Some? && !NewDogComplete(form) ==> r == Error(MsgDogFieldsRequired) && unchanged(this)
      ensures caller.Some? && NewDogComplete(form) && ownerFault.Fails? ==>
        r == Error(ownerFault.err.message) && unchanged(this)
      ensures caller.Some? && NewDogComplete(form) && ownerFault == NoRow ==>
        r == Error(MsgOwnerFailed) && unchanged(this)
      // once the owner row is in, it stays, whatever the dog insert does
      ensures caller.Some? && NewDogComplete(form) && ownerFault == NoFault ==>
        owners == old(owners)[old(NextId()) := ReadOwner(form, "owner_")]
      ensures caller.Some? && NewDogComplete(form) && ownerFault == NoFault && dogFault == NoFault
              && ChipInUse(old(dogs), ChipText(form)) ==>
        r == Error(MsgChipExists) && dogs == old(dogs)
      ensures caller.Some? && NewDogComplete(form) && ownerFault == NoFault && dogFault.Fails? ==>
        r == Error(DogFailureMessage(dogFault.err)) && dogs == old(dogs)
      ensures caller.Some? && NewDogComplete(form) && ownerFault == NoFault && dogFault == NoRow ==>
        r == Error(MsgDogFailed) && dogs == old(dogs)
      ensures r.Created? <==>
        caller.Some? && NewDogComplete(form) && ownerFault == NoFault && dogFault == NoFault
        && !ChipInUse(old(dogs), ChipText(form))
      ensures r.Created? ==>
        && r.dogId !in old(dogs)
        && dogs == old(dogs)[r.dogId := Dog(ChipText(form), AsText(form, "name"), OptText(form, "breed"),
                                            OptText(form, "birthdate"), old(NextId()), caller.value, StatusNormal)]
        && old(NextId()) !in old(owners)
        && r.dogId != [] && NoWs(r.dogId)
    {
      if caller.None? {
        return Error(MsgUnauthorized);
      }
      var chip := ChipText(form);
      var name := AsText(form, "name");
      var breed := OptText(form, "breed");
      var birthdate := OptText(form, "birthdate");
      var owner := ReadOwner(form, "owner_");
      if chip == "" || name == "" || owner.fullName == "" {
        return Error(MsgDogFieldsRequired);
      }
      var ownerReply := InsertOwner(owner, ownerFault);
      if !ownerReply.Row? {
        return Error(if ownerReply.Failed? then ownerReply.err.message else MsgOwnerFailed);
      }
      ghost var dogSerial := serial;
      var dogReply := InsertDog(Dog(chip, name, breed, birthdate, ownerReply.id, caller.value, StatusNormal), dogFault);
      match dogReply
      case Row(id) =>
        MintIdNoWs(dogSerial);
        r := Created(id);
      case Failed(e) =>
        r := Error(DogFailureMessage(e));
      case NoData =>
        r := Error(MsgDogFailed);
    }

    /** addVaccine: append one vaccine row attributed to the caller. */
    method AddVaccine(caller: Option<Id>, form: Form, fault: Option<StoreError>) returns (r: ActionResult)
      requires Valid()
      modifies this`vaccines
      ensures Valid()
      ensures !r.Created?
      ensures caller.None? ==> r == Error(MsgUnauthorized)
      ensures caller.Some? && !VaccineComplete(form) ==> r == Error(MsgVaccineFieldsRequired)
      ensures caller.Some? && VaccineComplete(form) && fault.Some? ==> r == Error(fault.value.message)
      ensures r.Error? ==> vaccines == old(vaccines)
      ensures r.Success? <==> caller.Some? && VaccineComplete(form) && fault.None?
      ensures r.Success? ==>
        && r.msg == MsgVaccineAdded
        && vaccines == old(vaccines) + [Vaccine(AsText(form, "dog_id"), AsText(form, "vaccine_name"),
                                                AsText(form, "vaccine_date"), OptText(form, "next_due_date"),
                                                caller.value)]
    {
      if caller.None? {
        return Error(MsgUnauthorized);
      }
      var dogId := AsText(form, "dog_id");
      var vaccineName := AsText(form, "vaccine_name");
      var vaccineDate := AsText(form, "vaccine_date");
      var nextDueDate := OptText(form, "next_due_date");
      if dogId == "" || vaccineName == "" || vaccineDate == "" {
        return Error(MsgVaccineFieldsRequired);
      }
      if fault.Some? {
        return Error(fault.value.message);
      }
      vaccines := vaccines + [Vaccine(dogId, vaccineName, vaccineDate, nextDueDate, caller.value)];
      r := Success(MsgVaccineAdded);
    }

    /** addStatusEvent: set the dog's status, then append the event. The status
        is not checked against the four known values, and a failed event insert
        leaves the new status without its event. */
    method AddStatusEvent(caller: Option<Id>, form: Form, updateFault: Option<StoreError>, eventFault: Option<StoreError>)
      returns (r: ActionResult)
      requires Valid()
      modifies this`dogs, this`statusEvents
      ensures Valid()
      ensures !r.Created?
      ensures caller.None? ==> r == Error(MsgUnauthorized) && unchanged(this)
      ensures caller.Some? && !StatusComplete(form) ==> r == Error(MsgStatusRequired) && unchanged(this)
      ensures caller.Some? && StatusComplete(form) && updateFault.Some? ==>
        r == Error(updateFault.value.message) && unchanged(this)
      ensures caller.Some? && StatusComplete(form) && updateFault.None? ==>
        dogs == WithStatus(old(dogs), AsText(form, "dog_id"), AsText(form, "status"))
      ensures caller.Some? && StatusComplete(form) && updateFault.None? && eventFault.Some? ==>
        r == Error(eventFault.value.message) && statusEvents == old(statusEvents)
      ensures r.Success? <==> caller.Some? && StatusComplete(form) && updateFault.None? && eventFault.None?
      ensures r.Success? ==>
        && r.msg == MsgStatusUpdated
        && statusEvents == old(statusEvents) + [StatusEvent(AsText(form, "dog_id"), AsText(form, "status"),
                                                            OptText(form, "notes"), caller.value)]
    {
      if caller.None? {
        return Error(MsgUnauthorized);
      }
      var dogId := AsText(form, "dog_id");
      var status := AsText(form, "status");
      var notes := OptText(form, "notes");
      if dogId == "" || status == "" {
        return Error(MsgStatusRequired);
      }
      var updateError := UpdateDogStatus(dogId, status, updateFault);
      if updateError.Some? {
        return Error(updateError.value.message);
      }
      if eventFault.Some? {
        return Error(eventFault.value.message);
      }
      statusEvents := statusEvents + [StatusEvent(dogId, status, notes, caller.value)];
      r := Success(MsgStatusUpdated);
    }

    /** The authorisation rule of transferOwner: the caller is the dog's primary vet. */
    predicate MayTransfer(caller: Id, dogId: string)
      reads this`dogs
    {
      dogId in dogs && dogs[dogId].primaryVetId == caller
    }

    /** The writes of transferOwner once the caller is authorised: insert the
        new owner row, point the dog at it, then log the transfer. A failed dog
        update leaves the new owner row behind; the audit insert's outcome is
        ignored. */
    method ReassignOwner(
      dogId: Id, oldOwnerId: string, newOwner: Owner, vet: Id,
      ownerFault: RowFault, updateFault: Option<StoreError>, auditFault: Option<StoreError>)
      returns (r: ActionResult)
      requires Valid() && dogId in dogs
      modifies this`owners, this`dogs, this`serial, this`auditLogs
      ensures Valid()
      ensures ownerFault.Fails? ==> r == Error(ownerFault.err.message) && unchanged(this)
      ensures ownerFault == NoRow ==> r == Error(MsgNewOwnerFailed) && unchanged(this)
      ensures ownerFault == NoFault ==> owners == old(owners)[old(NextId()) := newOwner]
      ensures ownerFault == NoFault && updateFault.Some? ==>
        r == Error(updateFault.value.message) && dogs == old(dogs) && auditLogs == old(auditLogs)
      ensures r.Success? <==> ownerFault == NoFault && updateFault.None?
      ensures !r.Created?
      ensures r.Success? ==>
        && r.msg == MsgTransferred
        && dogs == old(dogs)[dogId := old(dogs)[dogId].(ownerId := old(NextId()))]
        && auditLogs == old(auditLogs) +
             (if auditFault.None?
              then [AuditEntry("dogs", dogId, "owner_transfer", oldOwnerId, old(NextId()), newOwner, vet)]
              else [])
    {
      var ownerReply := InsertOwner(newOwner, ownerFault);
      if !ownerReply.Row? {
        return Error(if ownerReply.Failed? then ownerReply.err.message else MsgNewOwnerFailed);
      }
      if updateFault.Some? {
        return Error(updateFault.value.message);
      }
      dogs := dogs[dogId := dogs[dogId].(ownerId := ownerReply.id)];
      if auditFault.None? {
        auditLogs := auditLogs + [AuditEntry("dogs", dogId, "owner_transfer", oldOwnerId,
                                             ownerReply.id, newOwner, vet)];
      }
      r := Success(MsgTransferred);
    }

    /** transferOwner: only the dog's primary vet may move it to a freshly
        inserted owner row; the submitted old owner id is logged, never
        compared with the dog's current owner. */
    method TransferOwner(
      caller: Option<Id>, form: Form,
      selectFault: Option<StoreError>, ownerFault: RowFault,
      updateFault: Option<StoreError>, auditFault: Option<StoreError>)
      returns (r: ActionResult)
      requires Valid()
      modifies this`owners, this`dogs, this`serial, this`auditLogs
      ensures Valid()
      ensures !r.Created?
      ensures caller.None? ==> r == Error(MsgUnauthorized) && unchanged(this)
      ensures caller.Some? && !TransferComplete(form) ==> r == Error(MsgNewOwnerRequired) && unchanged(this)
      ensures caller.Some? && TransferComplete(form) && (selectFault.Some? || AsText(form, "dog_id") !in old(dogs)) ==>
        r == Error(MsgDogNotFound) && unchanged(this)
      ensures caller.Some? && TransferComplete(form) && selectFault.None? && AsText(form, "dog_id") in old(dogs)
              && !old(MayTransfer(caller.value, AsText(form, "dog_id"))) ==>
        r == Error(MsgNotPrimaryVet) && unchanged(this)
      ensures caller.Some? && TransferComplete(form) && selectFault.None?
              && old(MayTransfer(caller.value, AsText(form, "dog_id"))) ==>
        && (ownerFault.Fails? ==> r == Error(ownerFault.err.message) && unchanged(this))
        && (ownerFault == NoRow ==> r == Error(MsgNewOwnerFailed) && unchanged(this))
        // the new owner row stays even when the dog update then fails
        && (ownerFault == NoFault ==> owners == old(owners)[old(NextId()) := ReadOwner(form, "new_owner_")])
        && (ownerFault == NoFault && updateFault.Some? ==>
              r == Error(updateFault.value.message) && dogs == old(dogs) && auditLogs == old(auditLogs))
      ensures r.Success? <==>
        && caller.Some? && TransferComplete(form) && selectFault.None?
        && old(MayTransfer(caller.value, AsText(form, "dog_id")))
        && ownerFault == NoFault && updateFault.None?
      ensures r.Success? ==>
        var dogId := AsText(form, "dog_id");
        && r.msg == MsgTransferred
        && old(NextId()) !in old(owners)
        && dogs == old(dogs)[dogId := old(dogs)[dogId].(ownerId := old(NextId()))]
        && dogs[dogId].ownerId != old(dogs)[dogId].ownerId
        && auditLogs == old(auditLogs) +
             (if auditFault.None?
              then [AuditEntry("dogs", dogId, "owner_transfer", AsText(form, "old_owner_id"),
                               old(NextId()), ReadOwner(form, "new_owner_"), caller.value)]
              else [])
    {
      if caller.None? {
        return Error(MsgUnauthorized);
      }
      var dogId := AsText(form, "dog_id");
      var oldOwnerId := AsText(form, "old_owner_id");
      var newOwner := ReadOwner(form, "new_owner_");
      if dogId == "" || oldOwnerId == "" || newOwner.fullName == "" {
        return Error(MsgNewOwnerRequired);
      }
      // `select('primary_vet_id, owner_id')`: the owner id read here is never used
      if selectFault.Some? || dogId !in dogs {
        return Error(MsgDogNotFound);
      }
      if dogs[dogId].primaryVetId != caller.value {
        return Error(MsgNotPrimaryVet);
      }
      r := ReassignOwner(dogId, oldOwnerId, newOwner, caller.value, ownerFault, updateFault, auditFault);
    }

    /** saveVetProfile: upsert the caller's vet row; blank fields become null. */
    method SaveVetProfile(caller: Option<Id>, form: Form, fault: Option<StoreError>) returns (r: ActionResult)
      requires Valid()
      modifies this`vets
      ensures Valid()
      ensures !r.Created?
      ensures caller.None? ==> r == Error(MsgUnauthorized)
      ensures caller.Some? && fault.Some? ==> r == Error(fault.value.message)
      ensures r.Error? ==> vets == old(vets)
      ensures r.Success? <==> caller.Some? && fault.None?
      ensures r.Success? ==>
        r.msg == MsgVetSaved
        && vets == old(vets)[caller.value := Vet(OptText(form, "clinic_name"), OptText(form, "phone"))]
    {
      if caller.None? {
        return Error(MsgUnauthorized);
      }
      var clinicName := OptText(form, "clinic_name");
      var phone := OptText(form, "phone");
      if fault.Some? {
        return Error(fault.value.message);
      }
      vets := vets[caller.value := Vet(clinicName, phone)];
      r := Success(MsgVetSaved);
    }
  }
}

=== FILE: scenarios.dfy ===
/**
 * Clients of the registry that chain the actions the way the pages do, so
 * that the action contracts are shown to be strong enough for the
 * registry's end-to-end promises.
 */
module Scenarios {
  import opened Wrappers
  import opened Text
  import opened Schema
  import opened Forms
  import opened DogActions
  import opened SearchPage

  /** A dog registered with a microchip number is found by the search page
      from any query that differs from it only in whitespace, unless the
      lookup fails, which the page shows as "no record". */
  method RegisterThenSearch(reg: Registry, vet: Id, form: Form, raw: string, lookupFault: Option<StoreError>)
    returns (created: ActionResult, found: SearchResult)
    requires reg.Valid()
    requires StripWs(raw) == StripWs(Field(form, "microchip_number"))
    modifies reg
    ensures reg.Valid()
    ensures NewDogComplete(form) && !ChipInUse(old(reg.dogs), ChipText(form)) ==> created.Created?
    ensures created.Created? && lookupFault.None? ==>
      created.dogId in reg.dogs && found == Match(created.dogId, reg.dogs[created.dogId])
    ensures created.Created? && lookupFault.Some? ==> found == NoMatch(ChipText(form))
  {
    created := reg.CreateDogRecord(Some(vet), form, NoFault, NoFault);
    found := Search(reg.dogs, Some(raw), lookupFault);
    if created.Created? {
      RegisteredDogIsFound(reg.dogs, created.dogId, form, raw, lookupFault);
    }
  }

  /** Registering a second dog whose microchip number differs from the first
      only in whitespace fails with the duplicate message; no second dog row
      exists, but the second owner row does. */
  method SecondRegistrationRejected(reg: Registry, vet: Id, first: Form, second: Form)
    returns (r1: ActionResult, r2: ActionResult)
    requires reg.Valid()
    requires NewDogComplete(first) && NewDogComplete(second) && !ChipInUse(reg.dogs, ChipText(first))
    requires StripWs(Field(first, "microchip_number")) == StripWs(Field(second, "microchip_number"))
    modifies reg
    ensures reg.Valid()
    ensures r1.Created? && r2 == Error(MsgChipExists)
    ensures reg.dogs.Keys == old(reg.dogs.Keys) + {r1.dogId}
    ensures |reg.owners.Keys| == |old(reg.owners.Keys)| + 2
  {
    r1 := reg.CreateDogRecord(Some(vet), first, NoFault, NoFault);
    ChipTextSpec(first);
    ChipTextSpec(second);
    assert ChipInUse(reg.dogs, ChipText(second)) by {
      assert reg.dogs[r1.dogId].microchip == ChipText(second);
    }
    r2 := reg.CreateDogRecord(Some(vet), second, NoFault, NoFault);
  }

  /** A saved vet profile is an upsert: saving twice leaves one row for the
      caller, holding the second form's values. */
  method SaveVetProfileTwice(reg: Registry, vet: Id, first: Form, second: Form)
    returns (r1: ActionResult, r2: ActionResult)
    requires reg.Valid()
    modifies reg
    ensures reg.Valid()
    ensures r1 == Success(MsgVetSaved) && r2 == Success(MsgVetSaved)
    ensures reg.vets == old(reg.vets)[vet := Vet(OptText(second, "clinic_name"), OptText(second, "phone"))]
    ensures reg.vets.Keys == old(reg.vets.Keys) + {vet}
  {
    r1 := reg.SaveVetProfile(Some(vet), first, None);
    r2 := reg.SaveVetProfile(Some(vet), second, None);
  }

  /** The transfer form for a dog: its id and current owner id filled in,
      the new owner's fields taken from `newOwnerForm`. */
  function TransferForm(newOwnerForm: Form, dogId: Id, ownerId: Id): Form {
    newOwnerForm["dog_id" := dogId]["old_owner_id" := ownerId]
  }

  /** The transfer action reads back the ids put into the transfer form, and
      the new owner's fields as they were submitted. */
  lemma TransferFormReads(newOwnerForm: Form, dogId: Id, ownerId: Id)
    requires NoWs(dogId) && NoWs(ownerId)
    ensures AsText(TransferForm(newOwnerForm, dogId, ownerId), "dog_id") == dogId
    ensures AsText(TransferForm(newOwnerForm, dogId, ownerId), "old_owner_id") == ownerId
    ensures ReadOwner(TransferForm(newOwnerForm, dogId, ownerId), "new_owner_") == ReadOwner(newOwnerForm, "new_owner_")
  {
  }

  /** Another vet's transfer of a dog is refused with nothing written; the
      primary vet's transfer then succeeds: the dog points at a new owner row,
      and one audit entry records the submitted and the new owner ids and the
      primary vet. */
  method DenyThenTransfer(reg: Registry, vetA: Id, vetB: Id, form: Form)
    returns (denied: ActionResult, granted: ActionResult)
    requires reg.Valid() && vetA != vetB
    requires TransferComplete(form)
    requires AsText(form, "dog_id") in reg.dogs && reg.dogs[AsText(form, "dog_id")].primaryVetId == vetA
    modifies reg
    ensures reg.Valid()
    ensures denied == Error(MsgNotPrimaryVet)
    ensures granted == Success(MsgTransferred)
    ensures AsText(form, "dog_id") in reg.dogs
    ensures var dog := reg.dogs[AsText(form, "dog_id")];
      && dog.ownerId !in old(reg.owners)
      && dog.ownerId != old(reg.dogs[AsText(form, "dog_id")].ownerId)
      && dog.primaryVetId == vetA
      && reg.owners[dog.ownerId] == ReadOwner(form, "new_owner_")
      && |reg.auditLogs| == |old(reg.auditLogs)| + 1
      && reg.auditLogs[|reg.auditLogs| - 1].entityId == AsText(form, "dog_id")
      && reg.auditLogs[|reg.auditLogs| - 1].oldOwnerId == AsText(form, "old_owner_id")
      && reg.auditLogs[|reg.auditLogs| - 1].newOwnerId == dog.ownerId
      && reg.auditLogs[|reg.auditLogs| - 1].createdByVetId == vetA
  {
    denied := reg.TransferOwner(Some(vetB), form, None, NoFault, None, None);
    granted := reg.TransferOwner(Some(vetA), form, None, NoFault, None, None);
  }

  /** Only a dog's primary vet may transfer it. Vet A registers a dog and so
      becomes its primary vet; vet B's transfer of that dog is refused; vet A's
      transfer succeeds, and its audit entry records the dog's previous owner
      and the new one. */
  method OnlyPrimaryVetTransfers(reg: Registry, vetA: Id, vetB: Id, dogForm: Form, newOwnerForm: Form)
    returns (created: ActionResult, denied: ActionResult, granted: ActionResult)
    requires reg.Valid() && vetA != vetB
    requires NewDogComplete(dogForm) && !ChipInUse(reg.dogs, ChipText(dogForm))
    requires ReadOwner(newOwnerForm, "new_owner_").fullName != ""
    modifies reg
    ensures reg.Valid()
    ensures created.Created? && created.dogId in reg.dogs
    ensures denied == Error(MsgNotPrimaryVet)
    ensures granted == Success(MsgTransferred)
    ensures var dog := reg.dogs[created.dogId];
      && dog.primaryVetId == vetA
      && dog.ownerId !in old(reg.owners)
      && reg.owners[dog.ownerId] == ReadOwner(newOwnerForm, "new_owner_")
      && |reg.auditLogs| == |old(reg.auditLogs)| + 1
      && reg.auditLogs[|reg.auditLogs| - 1].entityId == created.dogId
      && reg.auditLogs[|reg.auditLogs| - 1].oldOwnerId != dog.ownerId
      && reg.auditLogs[|reg.auditLogs| - 1].newOwnerId == dog.ownerId
      && reg.auditLogs[|reg.auditLogs| - 1].createdByVetId == vetA
  {
    ghost var ownerSerial := reg.serial;
    created := reg.CreateDogRecord(Some(vetA), dogForm, NoFault, NoFault);
    var previousOwner := reg.dogs[created.dogId].ownerId;
    assert previousOwner == MintId(ownerSerial);
    MintIdNoWs(ownerSerial);
    var form := TransferForm(newOwnerForm, created.dogId, previousOwner);
    TransferFormReads(newOwnerForm, created.dogId, previousOwner);
    denied, granted := DenyThenTransfer(reg, vetA, vetB, form);
  }
}

=== FILE: schema.dfy ===
/**
 * The rows of the registry's relational store (owners, dogs, vaccines,
 * status_events, audit_logs, vets), the ways one store call can fail, and
 * the identifiers the store hands out.
 */
module Schema {
  import opened Wrappers
  import opened Text

  type Id = string

  datatype Owner = Owner(fullName: string, phone: Option<string>, email: Option<string>, address: Option<string>)

  /** `status` is free text: the column is written from the form as given. */
  datatype Dog = Dog(
    microchip: string,
    name: string,
    breed: Option<string>,
    birthdate: Option<string>,
    ownerId: Id,
    primaryVetId: Id,
    status: string)

  datatype Vaccine = Vaccine(
    dogId: string,
    vaccineName: string,
    vaccineDate: string,
    nextDueDate: Option<string>,
    createdByVetId: Id)

  datatype StatusEvent = StatusEvent(dogId: string, status: string, notes: Option<string>, createdByVetId: Id)

  /** One `audit_logs` row: `old_data` holds the submitted previous owner id,
      `new_data` the new owner's id and the new owner row. */
  datatype AuditEntry = AuditEntry(
    entity: string,
    entityId: string,
    action: string,
    oldOwnerId: string,
    newOwnerId: Id,
    newOwner: Owner,
    createdByVetId: Id)

  datatype Vet = Vet(clinicName: Option<string>, phone: Option<string>)

  /** The status every new dog starts in. */
  const StatusNormal := "normal"

  /** The PostgreSQL error code of a unique-constraint violation. */
  const UniqueViolation := "23505"

  /** The error object a failed store call carries. */
  datatype StoreError = StoreError(code: string, message: string)

  /** The error the store raises when a dog's microchip number is already registered. */
  const ChipConflict := StoreError(UniqueViolation, "duplicate key value violates unique constraint")

  /** What happens to one `insert(...).select(...).single()` call: it goes
      through (subject to the store's own constraints), it fails with an error,
      or it comes back with neither a row nor an error. */
  datatype RowFault = NoFault | Fails(err: StoreError) | NoRow

  /** What such a call returns: the new row's id, the error, or nothing. */
  datatype Reply = Row(id: Id) | Failed(err: StoreError) | NoData

  predicate ChipInUse(dogs: map<Id, Dog>, chip: string) {
    exists id :: id in dogs && dogs[id].microchip == chip
  }

  /** The unique constraint on `dogs.microchip_number`. */
  predicate MicrochipsUnique(dogs: map<Id, Dog>) {
    forall a, b :: a in dogs && b in dogs && dogs[a].microchip == dogs[b].microchip ==> a == b
  }

  /** The effect of `update({ status }).eq('id', id)`: the matching dog, if
      any, takes the new status; a missing id matches no row and changes nothing. */
  function WithStatus(dogs: map<Id, Dog>, id: string, status: string): (r: map<Id, Dog>)
    ensures r.Keys == dogs.Keys
    ensures id in dogs ==> r[id] == dogs[id].(status := status)
    ensures forall other :: other in dogs && other != id ==> r[other] == dogs[other]
  {
    if id in dogs then dogs[id := dogs[id].(status := status)] else dogs
  }

  function Digit(d: nat): (c: char)
    requires d < 10
    ensures '0' <= c <= '9'
  {
    ('0' as int + d) as char
  }

  /** The decimal numeral of `n`. */
  function Decimal(n: nat): (r: string)
    ensures r != []
    ensures forall i :: 0 <= i < |r| ==> '0' <= r[i] <= '9'
  {
    if n < 10 then [Digit(n)] else Decimal(n / 10) + [Digit(n % 10)]
  }

  /** The id the store gives to the `n`-th row it creates; a serial stands
      in for the generated keys of the store. */
  function MintId(n: nat): Id {
    Decimal(n)
  }

  /** A minted id is non-empty and holds no whitespace, so `asText` reads it
      back from a form unchanged. */
  lemma MintIdNoWs(n: nat)
    ensures MintId(n) != [] && NoWs(MintId(n))
  {
  }

  /** Distinct serials give distinct ids, so a minted id is never reused. */
  lemma {:induction false} MintIdInjective(a: nat, b: nat)
    ensures MintId(a) == MintId(b) <==> a == b
  {
    if MintId(a) == MintId(b) {
      DecimalInjective(a, b);
    }
  }

  lemma {:induction false} DecimalInjective(a: nat, b: nat)
    requires Decimal(a) == Decimal(b)
    ensures a == b
  {
    var da, db := Decimal(a), Decimal(b);
    if a < 10 && b < 10 {
      assert da[0] == Digit(a) && db[0] == Digit(b);
    } else if a < 10 || b < 10 {
      assert false;
    } else {
      assert Decimal(a / 10) == da[..|da| - 1];
      assert Decimal(b / 10) == db[..|db| - 1];
      assert Digit(a % 10) == da[|da| - 1] && Digit(b % 10) == db[|db| - 1];
      DecimalInjective(a / 10, b / 10);
    }
  }
}

=== FILE: search.dfy ===
/**
 * The microchip lookup of app/search/page.tsx: the query is trimmed and
 * stripped of all whitespace, an empty query looks nothing up, and any other
 * query is an exact match on the dogs' microchip numbers.
 */
module SearchPage {
  import opened Wrappers
  import opened Text
  import opened Schema
  import opened Forms

  /** `(searchParams.q ?? '').trim().replace(/\s+/g, '')` */
  function QueryChip(q: Option<string>): string {
    NormalizeChip(if q.Some? then q.value else "")
  }

  /** What the page shows: no result section, "No dog record found", or the dog. */
  datatype SearchResult = NoQuery | NoMatch(chip: string) | Match(id: Id, dog: Dog)

  function MatchingIds(dogs: map<Id, Dog>, chip: string): set<Id> {
    set id | id in dogs && dogs[id].microchip == chip
  }

  /** Some dog carries a microchip number exactly when the lookup's match set
      is non-empty. */
  lemma MatchingIdsInUse(dogs: map<Id, Dog>, chip: string)
    ensures ChipInUse(dogs, chip) <==> MatchingIds(dogs, chip) != {}
  {
    if ChipInUse(dogs, chip) {
      var id :| id in dogs && dogs[id].microchip == chip;
      assert id in MatchingIds(dogs, chip);
    }
  }

  lemma SingletonHasOneMember(ids: set<Id>, a: Id, b: Id)
    requires |ids| == 1 && a in ids && b in ids
    ensures a == b
  {
    if a != b {
      assert {a, b} <= ids;
      assert |{a, b}| == 2;
      SubsetSize({a, b}, ids);
      assert false;
    }
  }

  lemma SubsetSize(small: set<Id>, big: set<Id>)
    requires small <= big
    ensures |small| <= |big|
  {
    assert big == small + (big - small);
  }

  /** `.eq('microchip_number', chip).maybeSingle()`: the matching row when
      there is exactly one; no data when there is none, and no data (with an
      error the page ignores) when there are several. */
  function MaybeSingle(dogs: map<Id, Dog>, chip: string): (r: Option<Id>)
    ensures r.Some? ==> r.value in dogs && dogs[r.value].microchip == chip
    ensures r.None? <==> |MatchingIds(dogs, chip)| != 1
  {
    var ids := MatchingIds(dogs, chip);
    if |ids| == 1 then
      assert forall a, b :: a in ids && b in ids ==> a == b by {
        forall a, b | a in ids && b in ids ensures a == b { SingletonHasOneMember(ids, a, b); }
      }
      var id :| id in ids;
      Some(id)
    else
      None
  }

  /** The search page's lookup over the registry's dogs. An empty query makes
      no store call; otherwise `lookupFault` is the outcome of the lookup, and
      a failed lookup leaves no data, which the page shows as "no record". */
  function Search(dogs: map<Id, Dog>, q: Option<string>, lookupFault: Option<StoreError>): (r: SearchResult)
    ensures r.NoQuery? <==> QueryChip(q) == []
    ensures r.NoMatch? ==> r.chip == QueryChip(q)
    ensures r.Match? ==> r.id in dogs && r.dog == dogs[r.id] && r.dog.microchip == QueryChip(q)
    ensures QueryChip(q) != [] && lookupFault.Some? ==> r == NoMatch(QueryChip(q))
  {
    var chip := QueryChip(q);
    if chip == [] then NoQuery
    else if lookupFault.Some? then NoMatch(chip)
    else
      match MaybeSingle(dogs, chip)
      case Some(id) => Match(id, dogs[id])
      case None => NoMatch(chip)
  }

  /** Normalising an already normalised query changes nothing. */
  lemma QueryIdempotent(q: Option<string>)
    ensures QueryChip(Some(QueryChip(q))) == QueryChip(q)
  {
    NormalizeIdempotent(if q.Some? then q.value else "");
  }

  /** Two queries look up the same microchip exactly when they agree once
      whitespace is ignored: "MA 000123" finds what "MA000123" finds. */
  lemma QueryIgnoresWs(a: string, b: string)
    ensures QueryChip(Some(a)) == QueryChip(Some(b)) <==> StripWs(a) == StripWs(b)
  {
    NormalizeEquivalent(a, b);
  }

  /** With unique microchip numbers, at most one dog matches a query. */
  lemma AtMostOneMatch(dogs: map<Id, Dog>, chip: string)
    requires MicrochipsUnique(dogs)
    ensures |MatchingIds(dogs, chip)| <= 1
  {
    var ids := MatchingIds(dogs, chip);
    if ids != {} {
      var id :| id in ids;
      assert ids == {id};
    }
  }

  /** With unique microchip numbers, a non-empty query whose lookup goes
      through finds the dog carrying that microchip number, and finds nothing
      when no dog carries it. */
  lemma SearchExact(dogs: map<Id, Dog>, q: Option<string>, id: Id, lookupFault: Option<StoreError>)
    requires MicrochipsUnique(dogs) && QueryChip(q) != []
    ensures lookupFault.None? && id in dogs && dogs[id].microchip == QueryChip(q) ==>
      Search(dogs, q, lookupFault) == Match(id, dogs[id])
    ensures !ChipInUse(dogs, QueryChip(q)) ==> Search(dogs, q, lookupFault) == NoMatch(QueryChip(q))
  {
    var chip := QueryChip(q);
    if id in dogs && dogs[id].microchip == chip {
      assert id in MatchingIds(dogs, chip);
      AtMostOneMatch(dogs, chip);
    }
    MatchingIdsInUse(dogs, chip);
  }

  /** A dog registered from a form is found by every query that agrees with
      the submitted microchip number once whitespace is ignored, unless the
      lookup itself fails. */
  lemma RegisteredDogIsFound(dogs: map<Id, Dog>, id: Id, form: Form, raw: string, lookupFault: Option<StoreError>)
    requires MicrochipsUnique(dogs)
    requires id in dogs && dogs[id].microchip == ChipText(form) != []
    requires StripWs(raw) == StripWs(Field(form, "microchip_number"))
    ensures Search(dogs, Some(raw), lookupFault) ==
      if lookupFault.None? then Match(id, dogs[id]) else NoMatch(ChipText(form))
  {
    ChipTextSpec(form);
    NormalizeIsStrip(raw);
    SearchExact(dogs, Some(raw), id, lookupFault);
  }
}

=== FILE: text.dfy ===
/**
 * Whitespace handling shared by the server actions and the search page:
 * `String.prototype.trim` and `replace(/\s+/g, '')`.
 */
module Text {

  /** The characters JavaScript's `trim` removes and its `\s` class matches:
      WhiteSpace (tab, vertical tab, form feed, space, no-break space, byte
      order mark and the space separators) and LineTerminator. */
  predicate IsWs(c: char) {
    || c == '\t' || c == '\n' || c == '\U{000B}' || c == '\U{000C}' || c == '\r'
    || c == ' ' || c == '\U{00A0}' || c == '\U{1680}'
    || ('\U{2000}' <= c <= '\U{200A}')
    || c == '\U{2028}' || c == '\U{2029}' || c == '\U{202F}' || c == '\U{205F}'
    || c == '\U{3000}' || c == '\U{FEFF}'
  }

  predicate NoWs(s: string) {
    forall i :: 0 <= i < |s| ==> !IsWs(s[i])
  }

  predicate AllWs(s: string) {
    forall i :: 0 <= i < |s| ==> IsWs(s[i])
  }

  /** `s.trimStart()` */
  function TrimStart(s: string): string {
    if s != [] && IsWs(s[0]) then TrimStart(s[1..]) else s
  }

  /** `s.trimEnd()` */
  function TrimEnd(s: string): string {
    if s != [] && IsWs(s[|s| - 1]) then TrimEnd(s[..|s| - 1]) else s
  }

  /** `s.trim()` */
  function Trim(s: string): string {
    TrimEnd(TrimStart(s))
  }

  /** `s.replace(/\s+/g, '')`: every whitespace character removed, the others
      kept in order. */
  function StripWs(s: string): (r: string)
    ensures NoWs(r)
    ensures |r| <= |s|
  {
    if s == [] then []
    else if IsWs(s[0]) then StripWs(s[1..])
    else [s[0]] + StripWs(s[1..])
  }

  /** The microchip normalisation, `s.trim().replace(/\s+/g, '')`, applied both
      when a dog is registered and when the search page reads its query. */
  function NormalizeChip(s: string): (r: string)
    ensures NoWs(r)
  {
    StripWs(Trim(s))
  }

  /** Trimming the start keeps the longest suffix that does not start with
      whitespace; everything dropped before it is whitespace. */
  lemma {:induction false} TrimStartSpec(s: string)
    ensures |TrimStart(s)| <= |s|
    ensures TrimStart(s) == s[|s| - |TrimStart(s)|..]
    ensures TrimStart(s) == [] || !IsWs(TrimStart(s)[0])
    ensures AllWs(s[..|s| - |TrimStart(s)|])
  {
    if s != [] && IsWs(s[0]) {
      TrimStartSpec(s[1..]);
      var k := |s| - |TrimStart(s)|;
      assert s[1..][k - 1..] == s[k..];
      forall i | 0 <= i < k ensures IsWs(s[..k][i]) {
        if i > 0 { assert s[..k][i] == s[1..][..k - 1][i - 1]; }
      }
    }
  }

  /** Trimming the end keeps the longest prefix that does not end with
      whitespace; everything dropped after it is whitespace. */
  lemma {:induction false} TrimEndSpec(s: string)
    ensures |TrimEnd(s)| <= |s|
    ensures TrimEnd(s) == s[..|TrimEnd(s)|]
    ensures TrimEnd(s) == [] || !IsWs(TrimEnd(s)[|TrimEnd(s)| - 1])
    ensures AllWs(s[|TrimEnd(s)|..])
  {
    if s != [] && IsWs(s[|s| - 1]) {
      var init := s[..|s| - 1];
      TrimEndSpec(init);
      var k := |TrimEnd(s)|;
      assert init[..k] == s[..k];
      forall i | k <= i < |s| ensures IsWs(s[i]) {
        if i < |s| - 1 { assert s[i] == init[k..][i - k]; }
      }
      assert forall i :: 0 <= i < |s[k..]| ==> s[k..][i] == s[k + i];
    }
  }

  /** A trimmed string neither starts nor ends with whitespace. */
  lemma TrimEdges(s: string)
    ensures Trim(s) == [] || (!IsWs(Trim(s)[0]) && !IsWs(Trim(s)[|Trim(s)| - 1]))
  {
    TrimStartSpec(s);
    TrimEndSpec(TrimStart(s));
  }

  lemma {:induction false} StripWsAppend(a: string, b: string)
    ensures StripWs(a + b) == StripWs(a) + StripWs(b)
  {
    if a == [] {
      assert a + b == b;
    } else {
      assert (a + b)[0] == a[0];
      assert (a + b)[1..] == a[1..] + b;
      StripWsAppend(a[1..], b);
    }
  }

  /** The stripped string keeps exactly the non-whitespace characters of the input. */
  lemma {:induction false} StripWsChars(s: string, c: char)
    ensures c in StripWs(s) <==> c in s && !IsWs(c)
  {
    if s != [] {
      StripWsChars(s[1..], c);
      assert c in s <==> c == s[0] || c in s[1..] by {
        assert s == [s[0]] + s[1..];
      }
    }
  }

  /** Stripping leaves a string alone exactly when it holds no whitespace. */
  lemma {:induction false} StripWsFixedPoint(s: string)
    ensures StripWs(s) == s <==> NoWs(s)
  {
    if s != [] && NoWs(s) {
      assert NoWs(s[1..]) by {
        forall i | 0 <= i < |s[1..]| ensures !IsWs(s[1..][i]) {
          assert s[1..][i] == s[i + 1];
        }
      }
      StripWsFixedPoint(s[1..]);
      assert s == [s[0]] + s[1..];
    }
  }

  /** Stripping yields the empty string exactly when the input is all whitespace. */
  lemma {:induction false} StripWsEmpty(s: string)
    ensures StripWs(s) == [] <==> AllWs(s)
  {
    if s != [] {
      StripWsEmpty(s[1..]);
      if AllWs(s) {
        assert AllWs(s[1..]) by {
          forall i | 0 <= i < |s[1..]| ensures IsWs(s[1..][i]) {
            assert s[1..][i] == s[i + 1];
          }
        }
      }
      if StripWs(s) == [] {
        assert IsWs(s[0]);
        forall i | 0 <= i < |s| ensures IsWs(s[i]) {
          if i > 0 { assert s[i] == s[1..][i - 1]; }
        }
      }
    }
  }

  lemma {:induction false} StripWsIdempotent(s: string)
    ensures StripWs(StripWs(s)) == StripWs(s)
  {
    StripWsFixedPoint(StripWs(s));
  }

  /** Trimming before stripping changes nothing: the trimmed ends are whitespace. */
  lemma {:induction false} StripWsIgnoresTrimStart(s: string)
    ensures StripWs(TrimStart(s)) == StripWs(s)
  {
    if s != [] && IsWs(s[0]) {
      StripWsIgnoresTrimStart(s[1..]);
    }
  }

  lemma {:induction false} StripWsIgnoresTrimEnd(s: string)
    ensures StripWs(TrimEnd(s)) == StripWs(s)
  {
    if s != [] && IsWs(s[|s| - 1]) {
      var init := s[..|s| - 1];
      StripWsIgnoresTrimEnd(init);
      assert s == init + [s[|s| - 1]];
      StripWsAppend(init, [s[|s| - 1]]);
      assert StripWs([s[|s| - 1]]) == [];
    }
  }

  /** Trimming before stripping changes nothing: the trimmed ends are whitespace. */
  lemma StripWsIgnoresTrim(s: string)
    ensures StripWs(Trim(s)) == StripWs(s)
  {
    StripWsIgnoresTrimStart(s);
    StripWsIgnoresTrimEnd(TrimStart(s));
  }

  /** A trimmed field is empty exactly when the raw field was all whitespace. */
  lemma TrimEmpty(s: string)
    ensures Trim(s) == [] <==> AllWs(s)
  {
    StripWsIgnoresTrim(s);
    StripWsEmpty(s);
    StripWsEmpty(Trim(s));
    TrimEdges(s);
    if Trim(s) != [] {
      assert !AllWs(Trim(s)) by { assert !IsWs(Trim(s)[0]); }
    }
  }

  /** A string without whitespace survives trimming unchanged. */
  lemma TrimNoWs(s: string)
    requires NoWs(s)
    ensures Trim(s) == s
  {
  }

  /** The microchip normalisation is the whitespace strip alone. */
  lemma NormalizeIsStrip(s: string)
    ensures NormalizeChip(s) == StripWs(s)
  {
    StripWsIgnoresTrim(s);
  }

  lemma NormalizeIdempotent(s: string)
    ensures NormalizeChip(NormalizeChip(s)) == NormalizeChip(s)
  {
    var n := NormalizeChip(s);
    TrimNoWs(n);
    StripWsFixedPoint(n);
  }

  /** Two inputs normalise to the same microchip exactly when they agree once
      whitespace is ignored. */
  lemma NormalizeEquivalent(a: string, b: string)
    ensures NormalizeChip(a) == NormalizeChip(b) <==> StripWs(a) == StripWs(b)
  {
    NormalizeIsStrip(a);
    NormalizeIsStrip(b);
  }

  /** Whitespace inserted anywhere in a microchip number does not change it. */
  lemma NormalizeIgnoresInsertedWs(a: string, w: string, b: string)
    requires AllWs(w)
    ensures NormalizeChip(a + w + b) == NormalizeChip(a + b)
  {
    NormalizeIsStrip(a + w + b);
    NormalizeIsStrip(a + b);
    StripWsAppend(a + w, b);
    StripWsAppend(a, w);
    StripWsAppend(a, b);
    StripWsEmpty(w);
  }

  /** A microchip number already free of whitespace is its own normal form. */
  lemma NormalizeNoWs(chip: string)
    requires NoWs(chip)
    ensures NormalizeChip(chip) == chip
  {
    NormalizeIsStrip(chip);
    StripWsFixedPoint(chip);
  }

  /** A microchip number typed with a space inside ("MA 000123") is the one
      typed without it ("MA000123"). */
  lemma NormalizeSpaced(prefix: string, serial: string)
    requires NoWs(prefix + serial)
    ensures NormalizeChip(prefix + " " + serial) == NormalizeChip(prefix + serial) == prefix + serial
  {
    var space := " ";
    assert AllWs(space) by {
      assert space[0] == ' ';
    }
    NormalizeIgnoresInsertedWs(prefix, space, serial);
    NormalizeNoWs(prefix + serial);
  }
}

=== FILE: wrappers.dfy ===
/** The optional value used for nullable columns and the absent caller. */
module Wrappers {

  datatype Option<+T> = None | Some(value: T)
}
